=== FILE: README.md ===
# Whack-a-mole game rules in Dafny

This project models the rules of a 30-second browser "whack-a-mole" game
written as one JavaScript file (`game.js`). Targets pop out of seven fixed
holes and the player taps them. A basic target ("iqos") is worth 30
points times the current multiplier. A bonus target ("sticks") opens a
six-second x2 window and scores 10 points under it.

The model keeps only the game rules: the session record, the per-frame
spawn process, the lazy multiplier expiry, scoring, tap resolution, and
the round clock with its start and end. Each rule is a pure function over
an immutable `Session`:

- `state.dfy` (`GameState`): holes, the session, the grid and the reachable-state invariant `Valid`.
- `scoring.dfy` (`Scoring`): `SetMultiplier`, `AddScore` and the per-frame `ExpireMultiplier`.
- `spawn.dfy` (`Spawning`): the per-frame spawn step, a loop over the holes in grid order that updates them in place and threads the draws from one hole to the next. `SpawnOutcome` is an independent per-hole description of what a frame may do. `EveryOutcomeReachable` shows that the step reaches every outcome it allows.
- `hit.dfy` (`HitTesting`): hit circles, the first-match scan (declarative `Hit` and loop `HitAt`), and the geometry lemma that the hit circles of two grid holes are disjoint.
- `loop.dfy` (`GameLoop`): `Start`, `Tick`, `EndGame`, runs of frame and press events, and the round-clock lemmas.

Modelling choices:

- Timestamps, canvas size and pointer coordinates are `real`. The score and the multiplier are `int`.
- The host's random generator is a stream of draws in [0, 1), consumed in the source's order. A hole in cooldown or holding a target takes no draw. An eligible hole that stays empty takes one. A hole that spawns takes four: spawn, kind, lifetime, cooldown.
- Frame timestamps and clock readings are parameters. A press carries its own clock reading, because the press handler reads the clock rather than using a frame timestamp.
- `lastTs == 0` means "not read yet", as the source's falsy test does. The lemmas about the round clock therefore assume positive frame timestamps.
- A bonus hit sets the multiplier to 2 before adding 10 points (game.js:252-253). It therefore always adds exactly 20, whatever the multiplier was before.

## Model

| member | source | states |
|---|---|---|
| GameState.Initial | game.js:54-73 | the page-load state is valid and idle, with score 0, multiplier 1, haptics on and every hole empty |
| Scoring.SetMultiplier | game.js:77-81 | the multiplier becomes `x` until `now + durationMs`; nothing else in the session changes |
| Scoring.AddScore | game.js:83-87 | the score rises by exactly `base` times the multiplier and nothing else changes; on a valid session a non-negative base never lowers the score |
| Scoring.ExpireMultiplier | game.js:163-170 | the multiplier changes exactly when it is above 1 and the frame time has reached `multUntil`, and then it drops to 1; score, holes and window end are untouched |
| Scoring.ExpiryIsStable | game.js:163-170 | expiry is idempotent, and a window that has ended stays ended at every later frame |
| Spawning.Rand | game.js:89-91 | a draw in [0, 1) is scaled into [lo, hi) |
| Spawning.ClearExpired | game.js:95 | a hole loses its target exactly when it had one and the frame time is past `until`; a kept target is kept as it was, and no other field changes |
| Spawning.SpawnHole | game.js:94-109 | one hole's frame outcome satisfies `SpawnOutcome`. A hole in cooldown or still holding a target only loses an expired target and takes no draw. An eligible hole takes one draw and stays as it is when that draw is at least 0.018. Otherwise it takes four draws and gets a new target, which is a bonus exactly when the second draw is below 0.15 |
| Spawning.SpawnFrom | game.js:94-110 | the loop from hole `j` on, updating the holes in place: entries before `j` are untouched, every later hole gets an outcome `SpawnOutcome` allows, and at most four draws per remaining hole are used, the rest being left as a suffix of the stream |
| Spawning.Spawn | game.js:93-111 | every hole, in grid order, gets an outcome allowed by `SpawnOutcome`; positions are kept; at most four draws per hole are used |
| Spawning.SpawnInGridOrder | game.js:93-109 | the holes are visited in grid order, each on fresh draws: with `out` the spawn step's holes and `k` the number of draws the first `i` holes took (none, one or four each, by `DrawsTaken`, so at most `4 * i`), hole `i`'s outcome is its own one-hole step on the four draws at positions `k` to `k + 3`, which the stream always holds |
| Spawning.IneligibleHolesDrawNothing | game.js:94-98 | a frame in which no hole is eligible uses no draws and only clears expired targets |
| Spawning.SpawnRules | game.js:95-108 | a live target is left alone; a hole in cooldown only loses an expired target; a new target appears only in an empty hole out of cooldown; its lifetime is in [650, 950) for bonus and [550, 900) for basic, and its cooldown is in [250, 520); position and hit flash never change |
| Spawning.EveryOutcomeReachable | game.js:101-108 | every outcome `SpawnOutcome` allows, of either kind and any lifetime and cooldown in range, is produced by some four draws |
| HitTesting.FirstHitFrom | game.js:239-266 | the scan from index `k` returns the first hole whose circle holds the press and that has a target, or none when no hole qualifies |
| HitTesting.FirstHit | game.js:239-266 | a hole is found exactly when some hole is hittable, and it is the first such hole in grid order |
| HitTesting.Hit | game.js:229-270 | when the round is not running, or no hole is hittable, nothing changes. Otherwise only the first hittable hole is emptied: `until` becomes 0, the flash runs to `now + 160`, and its cooldown and every other hole are kept. A basic hit adds 30 × multiplier and keeps the window; a bonus hit adds exactly 20 and sets x2 until `now + 6000`. Clock and running flag are untouched and validity is kept |
| HitTesting.HitAt | game.js:239-266 | the source's scan loop with its early exit computes exactly `Hit` |
| HitTesting.BonusWindowLastsSixSeconds | game.js:251-253 | after a bonus hit at `now`, the frame check keeps x2 before `now + 6000` and restores x1 from then on, whatever window was open before |
| HitTesting.GridSeparated | game.js:48-52 | two grid holes are 0.3 apart along a row, or at least 0.28 apart across rows |
| HitTesting.HitCirclesDisjoint | game.js:236-246 | on a canvas of positive size no press lies in the hit circles of two different grid holes |
| HitTesting.SecondPressIsNoOp | game.js:246-259 | pressing the same point a second time, with no frame in between, changes nothing |
| HitTesting.SecondPressOnSameHoleIsNoOp | game.js:246-259 | hitting the same hole twice, with no frame in between, changes nothing the second time, wherever in that hole's hit circle the second press lands: the hole is empty after the first hit and no other hole's circle overlaps it |
| GameLoop.Start | game.js:193-206 | a new round runs with 30000 ms left, score 0, multiplier 1 whose window ends now, `lastTs` 0, and every hole emptied with all timestamps 0; haptics are kept and the session is valid |
| GameLoop.StartForgetsRound | game.js:193-206 | apart from the haptic preference, the state before a start does not affect the state after it |
| GameLoop.EndGame | game.js:212-213 | ending clears the running flag and nothing else |
| GameLoop.Tick | game.js:173-191 | a stopped session is unchanged. Otherwise `lastTs` becomes the frame time, and the time left drops by the time since the previous frame, or by nothing on the round's first frame. The holes are the spawn step's result on this frame's draws (each an outcome `SpawnOutcome` allows), the multiplier is expired, and the round keeps running exactly while time is left. The score never changes and validity is kept |
| GameLoop.Step | game.js:273-276 | one event is either a frame, handled by the frame callback (game.js:173-190), or a press, handled by this listener; either keeps the session valid, never raises a stopped session back to running, and never lowers the score |
| GameLoop.Run | game.js:186-190 | a run of frames and presses, one after another, keeps the number of holes, and a running round in it always has time left |
| GameLoop.StoppedSessionIsFrozen | game.js:173-174 | once a round has ended, no sequence of frames and presses changes anything |
| GameLoop.ScoreNeverDecreases | game.js:83-87 | over any sequence of frames and presses the session stays valid and the score does not decrease |
| GameLoop.FramesKeepScore | game.js:173-191 | frames alone never change the score |
| GameLoop.LastTsIsLatestFrame | game.js:176-178 | while a round runs, `lastTs` is the timestamp of the latest frame it has seen |
| GameLoop.ClockTelescopes | game.js:176-180 | once the clock has been read, a running round's time left is the time left before, minus the time from the frame it was read at to its latest frame |
| GameLoop.RoundLastsThirtySeconds | game.js:173-199 | from a start whose first event is a frame, a running round has 30000 ms minus the time since that first frame left. It has ended once a frame comes 30000 ms or more after the first |
| GameLoop.QuietRoundScoresNothing | game.js:173-199 | a round of frames only, spanning 30000 ms, ends idle with score 0 |

## Left out

- Canvas drawing (game.js:113-161 apart from the multiplier check): rendering only. The hit-flash fade is floating-point presentation.
- Text read-outs of time, score and multiplier: presentation only.
- Canvas resizing and the device pixel ratio (game.js:19-26): the canvas size and the already-scaled press coordinates are inputs.
- Image loading (game.js:29-45, 285-292): asynchronous, and the rules do not depend on it.
- Host-shell calls (ready, expand, haptic feedback, popup, alert): fire-and-forget foreign calls. `hapticOn` is kept as a flag that start leaves alone.
- The haptic toggle button (game.js:279-282): UI wiring; it only flips `hapticOn`.
- Frame scheduling: modelled as a sequence of `Frame` events. The spawn draws are a stream parameter, and the clock readings are parameters.
- HitTesting.Hit: the press handler reads the clock twice, once for the multiplier window and once for the hit flash. The model uses one reading for both.
- Floating-point rounding: all arithmetic is exact real arithmetic.
- HitTesting.SecondPressIsNoOp and HitTesting.SecondPressOnSameHoleIsNoOp: stated only for a canvas of positive width and height (the second press's canvas, for the latter). On a canvas of zero width the hit circles of holes that share a row coincide; on a canvas of zero height, those of holes that share a column coincide. So a second press can hit the next hole.
- GameLoop.ClockTelescopes: assumes positive frame timestamps, because a timestamp of exactly 0 would leave `lastTs` looking unread.
- GameLoop.RoundLastsThirtySeconds: assumes positive frame timestamps and a frame as the first event after the start.

=== FILE: hit.dfy ===
/**
 Resolution of a pointer press.

 Each hole has a hit circle centred a quarter of a hole size above the
 hole (the target pops up) with a radius of 0.55 hole sizes, where the
 hole size is 18% of the canvas's shorter side. The holes are scanned in
 grid order and only the first one whose circle contains the point and
 that holds a target is hit.
 */
module HitTesting {
  import opened GameState
  import opened Scoring

  /** A pointer press at canvas pixel (`x`, `y`) on a `w` by `h` canvas. */
  datatype Tap = Tap(x: real, y: real, w: real, h: real)

  const BasicPoints: int := 30
  const BonusPoints: int := 10
  const BonusMultiplier: int := 2
  const BonusWindowMs: real := 6000.0
  const FlashMs: real := 160.0

  function Min(a: real, b: real): real {
    if a <= b then a else b
  }

  function HoleSize(t: Tap): real {
    Min(t.w, t.h) * 0.18
  }

  /** The press lies in the hole's hit circle, boundary included. */
  predicate InHitCircle(hole: Hole, t: Tap) {
    var size := HoleSize(t);
    var dx := t.x - hole.x * t.w;
    var dy := t.y - (hole.y * t.h - size * 0.25);
    var r := size * 0.55;
    dx * dx + dy * dy <= r * r
  }

  /** The press would hit this hole: it is in the circle and there is a target. */
  predicate Hittable(hole: Hole, t: Tap) {
    InHitCircle(hole, t) && hole.kind.Some?
  }

  /** Hole `i` is the first hittable hole in scan order. */
  predicate IsFirstHit(holes: seq<Hole>, t: Tap, i: int) {
    && 0 <= i < |holes|
    && Hittable(holes[i], t)
    && forall j :: 0 <= j < i ==> !Hittable(holes[j], t)
  }

  predicate NoHit(holes: seq<Hole>, t: Tap) {
    forall j :: 0 <= j < |holes| ==> !Hittable(holes[j], t)
  }

  /** The first hittable hole at or after index `k`, if any. */
  function FirstHitFrom(holes: seq<Hole>, t: Tap, k: nat): (r: Option<nat>)
    requires k <= |holes|
    requires forall j :: 0 <= j < k ==> !Hittable(holes[j], t)
    ensures r.Some? ==> IsFirstHit(holes, t, r.value)
    ensures r.None? ==> NoHit(holes, t)
    decreases |holes| - k
  {
    if k == |holes| then None
    else if Hittable(holes[k], t) then Some(k)
    else FirstHitFrom(holes, t, k + 1)
  }

  function FirstHit(holes: seq<Hole>, t: Tap): (r: Option<nat>)
    ensures r.Some? <==> !NoHit(holes, t)
    ensures r.Some? ==> IsFirstHit(holes, t, r.value)
  {
    FirstHitFrom(holes, t, 0)
  }

  /** Hole `h` once its target has been hit at `now`. */
  function Whacked(h: Hole, now: real): Hole {
    h.(kind := None, until := 0.0, justHit := now + FlashMs)
  }

  /** What hitting hole `i` at `now` does to the session: that hole is
      emptied and flashes, its cooldown and every other hole are kept, and
      the score rises by 30 times the multiplier for a basic target or by
      exactly 20 for a bonus target, which also opens a fresh x2 window. */
  predicate HitEffect(s: Session, r: Session, i: int, now: real)
    requires 0 <= i < |s.holes| && s.holes[i].kind.Some?
  {
    && |r.holes| == |s.holes|
    && r.holes[i].kind.None? && r.holes[i].until == 0.0 && r.holes[i].justHit == now + FlashMs
    && r.holes[i].cooldown == s.holes[i].cooldown
    && r.holes[i].x == s.holes[i].x && r.holes[i].y == s.holes[i].y
    && (forall j :: 0 <= j < |s.holes| && j != i ==> r.holes[j] == s.holes[j])
    && match s.holes[i].kind.value
       case Iqos =>
         r.score == s.score + BasicPoints * s.multiplier
         && r.multiplier == s.multiplier && r.multUntil == s.multUntil
       case Sticks =>
         r.score == s.score + 20 && r.multiplier == 2 && r.multUntil == now + BonusWindowMs
  }

  /** Scores hole `i` and clears it. */
  function Score(s: Session, i: nat, now: real): Session
    requires i < |s.holes| && s.holes[i].kind.Some?
  {
    var h := s.holes[i];
    var scored :=
      if h.kind.value == Sticks then AddScore(SetMultiplier(s, BonusMultiplier, BonusWindowMs, now), BonusPoints)
      else AddScore(s, BasicPoints);
    scored.(holes := s.holes[i := Whacked(h, now)])
  }

  /** A pointer press at `now`. */
  function Hit(s: Session, t: Tap, now: real): (r: Session)
    ensures r.running == s.running && r.timeLeft == s.timeLeft && r.lastTs == s.lastTs
    ensures r.hapticOn == s.hapticOn && |r.holes| == |s.holes|
    ensures !s.running || NoHit(s.holes, t) ==> r == s
    ensures forall i :: s.running && IsFirstHit(s.holes, t, i) ==> HitEffect(s, r, i, now)
    ensures Valid(s) ==> Valid(r) && r.score >= s.score
  {
    if !s.running then s
    else match FirstHit(s.holes, t)
      case None => s
      case Some(i) => Score(s, i, now)
  }

  /** A bonus hit at `now` leaves x2 in force at every frame before
      `now + 6000` and back at x1 from then on, whatever the multiplier
      and window were before. */
  lemma BonusWindowLastsSixSeconds(s: Session, t: Tap, i: int, now: real, ts: real)
    requires s.running && IsFirstHit(s.holes, t, i) && s.holes[i].kind == Some(Sticks)
    ensures ExpireMultiplier(Hit(s, t, now), ts).multiplier == (if ts < now + BonusWindowMs then 2 else 1)
  {
    assert HitEffect(s, Hit(s, t, now), i, now);
  }

  /** The press handler's loop: scan the holes in order and stop at the first hit.
      It computes exactly what `Hit` states. */
  method HitAt(s: Session, t: Tap, now: real) returns (r: Session)
    ensures r == Hit(s, t, now)
  {
    r := s;
    if !s.running {
      return;
    }
    var i := 0;
    while i < |s.holes|
      invariant 0 <= i <= |s.holes|
      invariant forall j :: 0 <= j < i ==> !Hittable(s.holes[j], t)
    {
      var h := s.holes[i];
      if InHitCircle(h, t) {
        if h.kind.Some? {
          r := Score(s, i, now);
          return;
        }
      }
      i := i + 1;
    }
  }

  lemma ProductPositive(a: real, b: real)
    requires a > 0.0 && b > 0.0
    ensures a * b > 0.0
  {
  }

  lemma ScaleGap(a: real, b: real, g: real, w: real)
    requires a - b >= g && w > 0.0
    ensures a * w - b * w >= g * w
  {
    if a - b > g {
      ProductPositive(a - b - g, w);
    }
  }

  /** A square exceeds `r * r` once its side lies outside [-r, r]. */
  lemma SquareOutside(d: real, r: real)
    requires r >= 0.0 && (d > r || d < -r)
    ensures d * d > r * r
  {
    if d > r {
      ProductPositive(d - r, d + r);
      assert d * d - r * r == (d - r) * (d + r);
    } else {
      var a, b := -d - r, r - d;
      ProductPositive(a, b);
      assert a * b == d * d - r * r;
    }
  }

  lemma SquareNonNegative(d: real)
    ensures d * d >= 0.0
  {
    if d > 0.0 {
      ProductPositive(d, d);
    } else if d < 0.0 {
      ProductPositive(-d, -d);
    }
  }

  /** A point in a circle of radius `r` is within `r` of the centre on each axis. */
  lemma AxisBound(dx: real, dy: real, r: real)
    requires r >= 0.0 && dx * dx + dy * dy <= r * r
    ensures -r <= dx <= r && -r <= dy <= r
  {
    SquareNonNegative(dx);
    SquareNonNegative(dy);
    if dx > r || dx < -r {
      SquareOutside(dx, r);
    }
    if dy > r || dy < -r {
      SquareOutside(dy, r);
    }
  }

  /** Two different grid positions are 0.3 apart on a row, or at least
      0.28 apart across rows. */
  lemma GridSeparated(i: int, j: int)
    requires 0 <= i < |Grid| && 0 <= j < |Grid| && i != j
    ensures || (Grid[i].1 == Grid[j].1 && (Grid[i].0 - Grid[j].0 >= 0.3 || Grid[j].0 - Grid[i].0 >= 0.3))
            || Grid[i].1 - Grid[j].1 >= 0.28
            || Grid[j].1 - Grid[i].1 >= 0.28
  {
  }

  /** A press in a hit circle lies in the square around it. */
  lemma CircleInBox(hole: Hole, t: Tap)
    requires t.w >= 0.0 && t.h >= 0.0 && InHitCircle(hole, t)
    ensures var r := HoleSize(t) * 0.55;
      && hole.x * t.w - r <= t.x <= hole.x * t.w + r
      && hole.y * t.h - HoleSize(t) * 0.25 - r <= t.y <= hole.y * t.h - HoleSize(t) * 0.25 + r
  {
    var size := HoleSize(t);
    AxisBound(t.x - hole.x * t.w, t.y - (hole.y * t.h - size * 0.25), size * 0.55);
  }

  /** On a canvas of positive size the hit circles of two different grid
      holes never overlap (two radii span 0.198 of the shorter side), so a
      press can be in at most one of them. */
  lemma HitCirclesDisjoint(holes: seq<Hole>, t: Tap, i: int, j: int)
    requires OnGrid(holes) && t.w > 0.0 && t.h > 0.0
    requires 0 <= i < |holes| && 0 <= j < |holes| && i != j
    ensures !(InHitCircle(holes[i], t) && InHitCircle(holes[j], t))
  {
    if InHitCircle(holes[i], t) && InHitCircle(holes[j], t) {
      CircleInBox(holes[i], t);
      CircleInBox(holes[j], t);
      assert HoleSize(t) <= 0.18 * t.w && HoleSize(t) <= 0.18 * t.h;
      GridSeparated(i, j);
      var hi, hj := holes[i], holes[j];
      assert hi.x == Grid[i].0 && hi.y == Grid[i].1 && hj.x == Grid[j].0 && hj.y == Grid[j].1;
      if hi.y == hj.y && hi.x - hj.x >= 0.3 {
        ScaleGap(hi.x, hj.x, 0.3, t.w);
      } else if hi.y == hj.y {
        ScaleGap(hj.x, hi.x, 0.3, t.w);
      } else if hi.y - hj.y >= 0.28 {
        ScaleGap(hi.y, hj.y, 0.28, t.h);
      } else {
        ScaleGap(hj.y, hi.y, 0.28, t.h);
      }
    }
  }

  /** Pressing the same point twice, with no frame in between, changes
      nothing the second time: the hole hit first is now empty and the
      point lies in no other hole's circle. */
  lemma SecondPressIsNoOp(s: Session, t: Tap, now1: real, now2: real)
    requires OnGrid(s.holes) && t.w > 0.0 && t.h > 0.0
    ensures Hit(Hit(s, t, now1), t, now2) == Hit(s, t, now1)
  {
    var r := Hit(s, t, now1);
    if s.running && !NoHit(s.holes, t) {
      var i := FirstHit(s.holes, t).value;
      forall j | 0 <= j < |r.holes|
        ensures !Hittable(r.holes[j], t)
      {
        if j != i {
          HitCirclesDisjoint(s.holes, t, i, j);
        }
      }
    }
  }

  /** Hitting the same hole twice with no frame in between changes nothing
      the second time, wherever in that hole's circle the second press
      lands: the hole is now empty and the press lies in no other hole's
      circle. */
  lemma SecondPressOnSameHoleIsNoOp(s: Session, t: Tap, t2: Tap, now1: real, now2: real)
    requires OnGrid(s.holes) && t2.w > 0.0 && t2.h > 0.0 && FirstHit(s.holes, t).Some?
    requires InHitCircle(s.holes[FirstHit(s.holes, t).value], t2)
    ensures Hit(Hit(s, t, now1), t2, now2) == Hit(s, t, now1)
  {
    var r := Hit(s, t, now1);
    if s.running {
      var i := FirstHit(s.holes, t).value;
      assert HitEffect(s, r, i, now1);
      forall j | 0 <= j < |r.holes|
        ensures !Hittable(r.holes[j], t2)
      {
        if j != i {
          HitCirclesDisjoint(s.holes, t2, i, j);
        }
      }
    }
  }
}

=== FILE: loop.dfy ===
/**
 The round controller: starting a round, the per-frame tick (clock,
 spawn, multiplier expiry, end of round) and runs of frames and presses.

 The host's frame scheduling becomes a sequence of `Frame` events, each
 carrying its timestamp and the random draws its spawn step uses; a
 pointer press becomes a `Press` event carrying the press and the clock
 reading.
 */
module GameLoop {
  import opened GameState
  import opened Scoring
  import opened Spawning
  import opened HitTesting

  /** Resets the session for a new round at clock reading `now`. The
      holes keep their positions; the haptic preference is kept. */
  function Start(s: Session, now: real): (r: Session)
    ensures r.running && r.timeLeft == RoundMs && r.lastTs == 0.0
    ensures r.score == 0 && r.multiplier == 1 && r.multUntil == now
    ensures r.hapticOn == s.hapticOn
    ensures |r.holes| == |s.holes|
    ensures forall i :: 0 <= i < |s.holes| ==> r.holes[i] == EmptyHole((s.holes[i].x, s.holes[i].y))
    ensures OnGrid(s.holes) ==> Valid(r)
  {
    var reset := SetMultiplier(s.(running := true, timeLeft := RoundMs, score := 0), 1, 0.0, now);
    reset.(lastTs := 0.0,
           holes := seq(|s.holes|, i requires 0 <= i < |s.holes| => EmptyHole((s.holes[i].x, s.holes[i].y))))
  }

  /** Nothing of a finished round survives a new start but the haptic
      preference: two sessions on the grid restart to the same state. */
  lemma StartForgetsRound(s1: Session, s2: Session, now: real)
    requires OnGrid(s1.holes) && OnGrid(s2.holes) && s1.hapticOn == s2.hapticOn
    ensures Start(s1, now) == Start(s2, now)
  {
    var r1, r2 := Start(s1, now), Start(s2, now);
    forall i | 0 <= i < |r1.holes|
      ensures r1.holes[i] == r2.holes[i]
    {
      assert r1.holes[i] == EmptyHole(Grid[i]);
      assert r2.holes[i] == EmptyHole(Grid[i]);
    }
  }

  function EndGame(s: Session): (r: Session)
    ensures !r.running && r.(running := s.running) == s
  {
    s.(running := false)
  }

  /** One animation frame at timestamp `ts`. The first frame of a round
      (`lastTs` still zero) costs no time. */
  function Tick(s: Session, ts: real, rs: seq<real>): (r: Session)
    requires |rs| >= 4 * |s.holes| && ValidDraws(rs)
    ensures !s.running ==> r == s
    ensures s.running ==> r.lastTs == ts
    ensures s.running && s.lastTs == 0.0 ==> r.timeLeft == s.timeLeft
    ensures s.running && s.lastTs != 0.0 ==> r.timeLeft == s.timeLeft - (ts - s.lastTs)
    ensures s.running ==> (r.running <==> r.timeLeft > 0.0)
    ensures r.score == s.score && r.hapticOn == s.hapticOn && |r.holes| == |s.holes|
    ensures s.running ==> r.holes == Spawn(s.holes, ts, rs).0
    ensures s.running ==> forall i :: 0 <= i < |s.holes| ==> SpawnOutcome(s.holes[i], r.holes[i], ts)
    ensures s.running ==> r.multiplier == ExpireMultiplier(s, ts).multiplier && r.multUntil == s.multUntil
    ensures Valid(s) ==> Valid(r)
  {
    if !s.running then s
    else
      var last := if s.lastTs == 0.0 then ts else s.lastTs;
      var dt := ts - last;
      var clocked := s.(lastTs := ts, timeLeft := s.timeLeft - dt);
      var spawned := clocked.(holes := Spawn(clocked.holes, ts, rs).0);
      assert OnGrid(s.holes) ==> OnGrid(spawned.holes);
      var drawn := ExpireMultiplier(spawned, ts);
      if drawn.timeLeft <= 0.0 then EndGame(drawn) else drawn
  }

  datatype Event =
    | Frame(ts: real, draws: seq<real>)
    | Press(tap: Tap, now: real)

  /** A frame brings enough draws, each in [0, 1), for `n` holes. */
  predicate EventFeasible(e: Event, n: nat) {
    e.Frame? ==> |e.draws| >= 4 * n && ValidDraws(e.draws)
  }

  predicate Feasible(es: seq<Event>, n: nat) {
    forall k :: 0 <= k < |es| ==> EventFeasible(es[k], n)
  }

  function Step(s: Session, e: Event): (r: Session)
    requires EventFeasible(e, |s.holes|)
    ensures |r.holes| == |s.holes| && r.hapticOn == s.hapticOn
    ensures r.running ==> s.running
    ensures ClockSound(s) ==> ClockSound(r)
    ensures Valid(s) ==> Valid(r) && r.score >= s.score
  {
    match e
    case Frame(ts, draws) => Tick(s, ts, draws)
    case Press(tap, now) => Hit(s, tap, now)
  }

  function Run(s: Session, es: seq<Event>): (r: Session)
    requires Feasible(es, |s.holes|)
    ensures |r.holes| == |s.holes|
    ensures ClockSound(s) ==> ClockSound(r)
    decreases |es|
  {
    if |es| == 0 then s
    else
      Run(Step(s, es[0]), es[1..])
  }

  /** Timestamp of the last frame in `es`, or `d` when there is none. */
  function LatestTs(es: seq<Event>, d: real): real
    decreases |es|
  {
    if |es| == 0 then d
    else LatestTs(es[1..], if es[0].Frame? then es[0].ts else d)
  }

  predicate PositiveFrames(es: seq<Event>) {
    forall k :: 0 <= k < |es| && es[k].Frame? ==> es[k].ts > 0.0
  }

  /** A finished round is frozen: no frame and no press changes anything. */
  lemma {:induction false} StoppedSessionIsFrozen(s: Session, es: seq<Event>)
    requires !s.running && Feasible(es, |s.holes|)
    ensures Run(s, es) == s
    decreases |es|
  {
    if |es| > 0 {
      StoppedSessionIsFrozen(Step(s, es[0]), es[1..]);
    }
  }

  /** The score never decreases and the session stays valid over any run
      of frames and presses. */
  lemma {:induction false} ScoreNeverDecreases(s: Session, es: seq<Event>)
    requires Valid(s) && Feasible(es, |s.holes|)
    ensures Valid(Run(s, es)) && Run(s, es).score >= s.score
    decreases |es|
  {
    if |es| > 0 {
      ScoreNeverDecreases(Step(s, es[0]), es[1..]);
    }
  }

  /** Frames alone never change the score. */
  lemma {:induction false} FramesKeepScore(s: Session, es: seq<Event>)
    requires Feasible(es, |s.holes|)
    requires forall k :: 0 <= k < |es| ==> es[k].Frame?
    ensures Run(s, es).score == s.score
    decreases |es|
  {
    if |es| > 0 {
      FramesKeepScore(Step(s, es[0]), es[1..]);
    }
  }

  /** While a round runs, `lastTs` is the timestamp of its latest frame. */
  lemma {:induction false} LastTsIsLatestFrame(s: Session, es: seq<Event>)
    requires s.running && Feasible(es, |s.holes|)
    ensures Run(s, es).running ==> Run(s, es).lastTs == LatestTs(es, s.lastTs)
    decreases |es|
  {
    if |es| > 0 {
      var s1 := Step(s, es[0]);
      if s1.running {
        LastTsIsLatestFrame(s1, es[1..]);
      } else {
        StoppedSessionIsFrozen(s1, es[1..]);
      }
    }
  }

  /** Once the clock has been read, the time charged to a running round
      is exactly the time between the frame it was read at and the latest
      frame. */
  lemma {:induction false} ClockTelescopes(s: Session, es: seq<Event>)
    requires s.running && s.lastTs > 0.0
    requires Feasible(es, |s.holes|) && PositiveFrames(es)
    ensures Run(s, es).running ==> Run(s, es).timeLeft == s.timeLeft - (Run(s, es).lastTs - s.lastTs)
    decreases |es|
  {
    if |es| > 0 {
      var s1 := Step(s, es[0]);
      if s1.running {
        ClockTelescopes(s1, es[1..]);
      } else {
        StoppedSessionIsFrozen(s1, es[1..]);
      }
    }
  }

  /** A round started at `now` whose first event is a frame lasts 30
      seconds of frame time: while it runs, the time left is 30000 ms minus
      the time since its first frame, and it has ended by the first frame
      that is 30000 ms or more after that. */
  lemma RoundLastsThirtySeconds(s: Session, now: real, es: seq<Event>)
    requires |es| > 0 && es[0].Frame?
    requires Feasible(es, |s.holes|) && PositiveFrames(es)
    ensures Run(Start(s, now), es).running ==>
              Run(Start(s, now), es).timeLeft == RoundMs - (LatestTs(es, 0.0) - es[0].ts)
    ensures LatestTs(es, 0.0) - es[0].ts >= RoundMs ==> !Run(Start(s, now), es).running
  {
    var s0 := Start(s, now);
    var s1 := Step(s0, es[0]);
    assert s1.running && s1.lastTs == es[0].ts && s1.timeLeft == RoundMs;
    ClockTelescopes(s1, es[1..]);
    LastTsIsLatestFrame(s1, es[1..]);
  }

  /** A round left alone for 30 seconds of frames ends with score 0. */
  lemma QuietRoundScoresNothing(s: Session, now: real, es: seq<Event>)
    requires |es| > 0 && forall k :: 0 <= k < |es| ==> es[k].Frame?
    requires Feasible(es, |s.holes|) && PositiveFrames(es)
    requires LatestTs(es, 0.0) - es[0].ts >= RoundMs
    ensures !Run(Start(s, now), es).running && Run(Start(s, now), es).score == 0
  {
    RoundLastsThirtySeconds(s, now, es);
    FramesKeepScore(Start(s, now), es);
  }
}

=== FILE: scoring.dfy ===
/**
 The score and the timed score multiplier.

 `SetMultiplier` opens a window during which every score is scaled;
 the window is closed lazily, once per frame, by `ExpireMultiplier`.
 */
module Scoring {
  import opened GameState

  /** Sets the multiplier to `x` until `now + durationMs`. */
  function SetMultiplier(s: Session, x: int, durationMs: real, now: real): (r: Session)
    ensures r.multiplier == x && r.multUntil == now + durationMs
    ensures r.(multiplier := s.multiplier, multUntil := s.multUntil) == s
  {
    s.(multiplier := x, multUntil := now + durationMs)
  }

  /** Adds `base` points scaled by the multiplier in force. */
  function AddScore(s: Session, base: int): (r: Session)
    ensures r.score - s.score == base * s.multiplier
    ensures r.(score := s.score) == s
    ensures Valid(s) && base >= 0 ==> Valid(r) && r.score >= s.score + base
  {
    s.(score := s.score + base * s.multiplier)
  }

  /** The multiplier window has run out at `ts`. */
  predicate WindowOver(s: Session, ts: real) {
    s.multiplier > 1 && s.multUntil - ts <= 0.0
  }

  /** The per-frame check that drops an ended x2 window back to x1. */
  function ExpireMultiplier(s: Session, ts: real): (r: Session)
    ensures r.multiplier != s.multiplier <==> s.multiplier > 1 && ts >= s.multUntil
    ensures r.multiplier != s.multiplier ==> r.multiplier == 1
    ensures r.(multiplier := s.multiplier) == s
    ensures Valid(s) ==> Valid(r)
  {
    if WindowOver(s, ts) then s.(multiplier := 1) else s
  }

  /** Expiry is idempotent, and once the window has ended at `ts` it stays
      ended at every later frame. */
  lemma ExpiryIsStable(s: Session, ts: real, later: real)
    requires ts <= later
    ensures ExpireMultiplier(ExpireMultiplier(s, ts), ts) == ExpireMultiplier(s, ts)
    ensures ExpireMultiplier(ExpireMultiplier(s, ts), later) == ExpireMultiplier(s, later)
  {
  }
}

=== FILE: spawn.dfy ===
/**
 The per-frame spawn process.

 Every frame each hole first drops a target whose lifetime has passed; a
 hole that is out of its cooldown and empty then draws a random number
 and, with probability `SpawnChance`, gets a new target whose kind,
 lifetime and cooldown are drawn as well.

 The host's random generator is replaced by a stream of draws in [0, 1),
 consumed in the order the game draws them: nothing for a hole that is
 in cooldown or occupied, one draw for an eligible hole that stays empty,
 four for a hole that spawns.
 */
module Spawning {
  import opened GameState

  /** Per-hole, per-frame chance of a spawn. */
  const SpawnChance: real := 0.018
  /** Chance that a spawned target is a bonus target. */
  const SticksChance: real := 0.15
  /** Cooldown after a spawn, drawn from [CooldownMin, CooldownMax). */
  const CooldownMin: real := 250.0
  const CooldownMax: real := 520.0

  /** Every draw lies in [0, 1), as the host's generator promises. */
  predicate ValidDraws(rs: seq<real>) {
    forall i :: 0 <= i < |rs| ==> 0.0 <= rs[i] < 1.0
  }

  /** Lifetime range of a freshly spawned target, by kind. */
  function LifeMin(k: Kind): real {
    match k
    case Sticks => 650.0
    case Iqos => 550.0
  }

  function LifeMax(k: Kind): real {
    match k
    case Sticks => 950.0
    case Iqos => 900.0
  }

  /** Scales the draw `u` onto [lo, hi). */
  function Rand(u: real, lo: real, hi: real): (r: real)
    requires 0.0 <= u < 1.0
    ensures lo < hi ==> lo <= r < hi
  {
    var d := hi - lo;
    if d > 0.0 then ScaledBelow(u, d); u * d + lo else u * d + lo
  }

  lemma ScaledBelow(u: real, d: real)
    requires 0.0 <= u < 1.0 && d > 0.0
    ensures 0.0 <= u * d < d
  {
    assert d - u * d == (1.0 - u) * d;
  }

  /** `h` once a target whose lifetime ended before `ts` has been removed. */
  function ClearExpired(h: Hole, ts: real): (r: Hole)
    ensures r.kind.None? <==> h.kind.None? || ts > h.until
    ensures r.(kind := h.kind) == h
    ensures r.kind.Some? ==> r == h
  {
    if h.kind.Some? && ts > h.until then h.(kind := None) else h
  }

  /** The hole may receive a new target at `ts`. */
  predicate Eligible(e: Hole, ts: real) {
    e.kind.None? && e.cooldown <= ts
  }

  /** `h2` is `e` with a fresh target spawned at `ts`: eligible before,
      lifetime and cooldown drawn from their ranges, nothing else changed. */
  predicate FreshTarget(e: Hole, h2: Hole, ts: real) {
    && Eligible(e, ts)
    && h2.kind.Some?
    && h2 == e.(kind := h2.kind, until := h2.until, cooldown := h2.cooldown)
    && LifeMin(h2.kind.value) <= h2.until - ts < LifeMax(h2.kind.value)
    && CooldownMin <= h2.cooldown - ts < CooldownMax
  }

  /** The outcomes one frame may have for one hole: either the hole is
      left as it is once expired targets are cleared, or it gets a fresh
      target. */
  predicate SpawnOutcome(h: Hole, h2: Hole, ts: real) {
    var e := ClearExpired(h, ts);
    h2 == e || FreshTarget(e, h2, ts)
  }

  /** One hole, one frame. Returns the new hole and the unused draws. */
  function SpawnHole(h: Hole, ts: real, rs: seq<real>): (r: (Hole, seq<real>))
    requires |rs| >= 4 && ValidDraws(rs)
    ensures SpawnOutcome(h, r.0, ts)
    ensures |rs| - 4 <= |r.1| <= |rs| && r.1 == rs[|rs| - |r.1|..] && ValidDraws(r.1)
    ensures !Eligible(ClearExpired(h, ts), ts) ==> r == (ClearExpired(h, ts), rs)
    ensures Eligible(ClearExpired(h, ts), ts) && SpawnChance <= rs[0] ==> r == (ClearExpired(h, ts), rs[1..])
    ensures Eligible(ClearExpired(h, ts), ts) && rs[0] < SpawnChance ==>
              && r.1 == rs[4..]
              && r.0 != ClearExpired(h, ts)
              && (r.0.kind == Some(Sticks) <==> rs[1] < SticksChance)
  {
    var e := ClearExpired(h, ts);
    if ts < e.cooldown then (e, rs)
    else if e.kind.Some? then (e, rs)
    else if rs[0] < SpawnChance then
      var sticks := rs[1] < SticksChance;
      var life := if sticks then Rand(rs[2], LifeMin(Sticks), LifeMax(Sticks))
                  else Rand(rs[2], LifeMin(Iqos), LifeMax(Iqos));
      var k := if sticks then Sticks else Iqos;
      (e.(kind := Some(k), until := ts + life, cooldown := ts + Rand(rs[3], CooldownMin, CooldownMax)), rs[4..])
    else (e, rs[1..])
  }

  /** The spawn loop from hole `j` on, as the game runs it in place: hole
      `j` takes its step on the draws left so far, the result is written
      into `acc` at `j`, and the loop goes on with the draws that step left.
      Entries before `j` are not touched. */
  function SpawnFrom(holes: seq<Hole>, acc: seq<Hole>, ts: real, rs: seq<real>, j: nat): (r: (seq<Hole>, seq<real>))
    requires |acc| == |holes| && j <= |holes|
    requires |rs| >= 4 * (|holes| - j) && ValidDraws(rs)
    ensures |r.0| == |holes|
    ensures forall i :: 0 <= i < j ==> r.0[i] == acc[i]
    ensures forall i :: j <= i < |holes| ==> SpawnOutcome(holes[i], r.0[i], ts)
    ensures |rs| - 4 * (|holes| - j) <= |r.1| <= |rs| && r.1 == rs[|rs| - |r.1|..]
    decreases |holes| - j
  {
    if j == |holes| then (acc, rs)
    else
      var (h2, rest) := SpawnHole(holes[j], ts, rs);
      SpawnFrom(holes, acc[j := h2], ts, rest, j + 1)
  }

  /** One frame of the spawn process over all holes, in grid order. */
  function Spawn(holes: seq<Hole>, ts: real, rs: seq<real>): (r: (seq<Hole>, seq<real>))
    requires |rs| >= 4 * |holes| && ValidDraws(rs)
    ensures |r.0| == |holes|
    ensures forall i :: 0 <= i < |holes| ==> SpawnOutcome(holes[i], r.0[i], ts)
    ensures forall i :: 0 <= i < |holes| ==> r.0[i].x == holes[i].x && r.0[i].y == holes[i].y
    ensures |rs| - 4 * |holes| <= |r.1| <= |rs| && r.1 == rs[|rs| - |r.1|..]
  {
    SpawnFrom(holes, holes, ts, rs, 0)
  }

  /** The rules a frame keeps for every hole, read off `SpawnOutcome`:
      a live target is left alone; a hole in cooldown only loses an expired
      target; a new target only appears in an empty, eligible hole, with its
      lifetime and cooldown in range; position and hit flash never change. */
  lemma SpawnRules(h: Hole, h2: Hole, ts: real)
    requires SpawnOutcome(h, h2, ts)
    ensures h2.x == h.x && h2.y == h.y && h2.justHit == h.justHit
    ensures h.kind.Some? && ts <= h.until ==> h2 == h
    ensures ts < h.cooldown ==> h2 == ClearExpired(h, ts)
    ensures h.kind.Some? && ts > h.until && h2.kind.Some? ==> FreshTarget(h.(kind := None), h2, ts)
    ensures h2 != ClearExpired(h, ts) ==> h2.kind.Some? && ts < h2.cooldown < h2.until
    ensures h2 != ClearExpired(h, ts) ==> FreshTarget(ClearExpired(h, ts), h2, ts)
  {
  }

  /** How many draws a hole's frame took to go from `h` to `h2`: none when
      it could not spawn, one when it stayed empty, four when it spawned. */
  function DrawsTaken(h: Hole, h2: Hole, ts: real): (n: nat)
    ensures n <= 4
  {
    if !Eligible(ClearExpired(h, ts), ts) then 0
    else if h2 == ClearExpired(h, ts) then 1
    else 4
  }

  /** Draws taken by holes `j` to `i - 1` going from `holes` to `out`. */
  function DrawsTakenIn(holes: seq<Hole>, out: seq<Hole>, ts: real, j: nat, i: nat): (n: nat)
    requires j <= i <= |holes| && |out| == |holes|
    ensures n <= 4 * (i - j)
    decreases i - j
  {
    if i == j then 0
    else DrawsTakenIn(holes, out, ts, j, i - 1) + DrawsTaken(holes[i - 1], out[i - 1], ts)
  }

  /** Counting from hole `j + 1` on: hole `j`'s draws come first. */
  lemma {:induction false} DrawsTakenInShift(holes: seq<Hole>, out: seq<Hole>, ts: real, j: nat, i: nat)
    requires j < i <= |holes| && |out| == |holes|
    ensures DrawsTakenIn(holes, out, ts, j, i)
            == DrawsTaken(holes[j], out[j], ts) + DrawsTakenIn(holes, out, ts, j + 1, i)
    decreases i - j
  {
    if i > j + 1 {
      DrawsTakenInShift(holes, out, ts, j, i - 1);
    }
  }

  /** One hole's step leaves exactly the draws it did not take. */
  lemma SpawnHoleLeavesRest(h: Hole, ts: real, rs: seq<real>)
    requires |rs| >= 4 && ValidDraws(rs)
    ensures SpawnHole(h, ts, rs).1 == rs[DrawsTaken(h, SpawnHole(h, ts, rs).0, ts)..]
  {
  }

  /** Dropping `a` draws and then `b` more drops `a + b`. */
  lemma SuffixOfSuffix(rs: seq<real>, rest: seq<real>, a: nat, b: nat, k: nat)
    requires a + b <= |rs| && rest == rs[a..] && k == a + b
    ensures rs[k..] == rest[b..]
  {
  }

  /** `SpawnInGridOrder` for the loop from hole `j` on, on named parts:
      `out` is the loop's result and `k` the number of draws holes `j` to
      `i - 1` took. */
  lemma {:induction false} GridOrderFrom(holes: seq<Hole>, acc: seq<Hole>, ts: real, rs: seq<real>,
                                         j: nat, i: nat, out: seq<Hole>, k: nat)
    requires |acc| == |holes| && j <= i < |holes|
    requires |rs| >= 4 * (|holes| - j) && ValidDraws(rs)
    requires out == SpawnFrom(holes, acc, ts, rs, j).0 && k == DrawsTakenIn(holes, out, ts, j, i)
    ensures ValidDraws(rs[k..]) && out[i] == SpawnHole(holes[i], ts, rs[k..]).0
    decreases i - j
  {
    var first := SpawnHole(holes[j], ts, rs);
    var rest := first.1;
    var acc' := acc[j := first.0];
    assert out == SpawnFrom(holes, acc', ts, rest, j + 1).0;
    assert out[j] == first.0;
    if i == j {
      assert rs[0..] == rs;
    } else {
      var d := DrawsTaken(holes[j], first.0, ts);
      var k' := DrawsTakenIn(holes, out, ts, j + 1, i);
      assert rest == rs[d..] by {
        SpawnHoleLeavesRest(holes[j], ts, rs);
      }
      assert k == d + k' by {
        DrawsTakenInShift(holes, out, ts, j, i);
      }
      GridOrderFrom(holes, acc', ts, rest, j + 1, i, out, k');
      SuffixOfSuffix(rs, rest, d, k', k);
    }
  }

  /** A hole's step reads at most its first four draws. */
  lemma SpawnHoleReadsFour(h: Hole, ts: real, rs: seq<real>)
    requires |rs| >= 4 && ValidDraws(rs)
    ensures ValidDraws(rs[..4]) && SpawnHole(h, ts, rs[..4]).0 == SpawnHole(h, ts, rs).0
  {
  }

  /** A step on the draws from `k` on is the step on the four draws at `k`. */
  lemma WindowOfSuffix(h: Hole, ts: real, rs: seq<real>, k: nat, h2: Hole)
    requires k + 4 <= |rs| && ValidDraws(rs[k..]) && h2 == SpawnHole(h, ts, rs[k..]).0
    ensures ValidDraws(rs[k..k + 4]) && h2 == SpawnHole(h, ts, rs[k..k + 4]).0
  {
    SpawnHoleReadsFour(h, ts, rs[k..]);
    assert rs[k..][..4] == rs[k..k + 4];
  }

  /** The holes are visited in grid order, each drawing fresh numbers where
      the holes before it stopped. With `out` the spawn step's holes and `k`
      the number of draws the first `i` holes took, hole `i`'s outcome is its
      own step on the four draws at `k`. */
  lemma SpawnInGridOrder(holes: seq<Hole>, ts: real, rs: seq<real>, i: nat, out: seq<Hole>, k: nat)
    requires |rs| >= 4 * |holes| && ValidDraws(rs) && i < |holes|
    requires out == Spawn(holes, ts, rs).0 && k == DrawsTakenIn(holes, out, ts, 0, i)
    ensures k <= 4 * i && k + 4 <= |rs|
    ensures ValidDraws(rs[k..k + 4]) && out[i] == SpawnHole(holes[i], ts, rs[k..k + 4]).0
  {
    GridOrderFrom(holes, holes, ts, rs, 0, i, out, k);
    WindowOfSuffix(holes[i], ts, rs, k, out[i]);
  }

  lemma {:induction false} IneligibleFrom(holes: seq<Hole>, acc: seq<Hole>, ts: real, rs: seq<real>, j: nat)
    requires |acc| == |holes| && j <= |holes|
    requires |rs| >= 4 * (|holes| - j) && ValidDraws(rs)
    requires forall i :: j <= i < |holes| ==> !Eligible(ClearExpired(holes[i], ts), ts)
    ensures SpawnFrom(holes, acc, ts, rs, j).1 == rs
    ensures forall i :: j <= i < |holes| ==> SpawnFrom(holes, acc, ts, rs, j).0[i] == ClearExpired(holes[i], ts)
    decreases |holes| - j
  {
    if j < |holes| {
      var e := ClearExpired(holes[j], ts);
      assert SpawnHole(holes[j], ts, rs) == (e, rs);
      IneligibleFrom(holes, acc[j := e], ts, rs, j + 1);
    }
  }

  /** A frame in which no hole is eligible uses no draws and only clears
      expired targets. */
  lemma IneligibleHolesDrawNothing(holes: seq<Hole>, ts: real, rs: seq<real>)
    requires |rs| >= 4 * |holes| && ValidDraws(rs)
    requires forall i :: 0 <= i < |holes| ==> !Eligible(ClearExpired(holes[i], ts), ts)
    ensures Spawn(holes, ts, rs).1 == rs
    ensures forall i :: 0 <= i < |holes| ==> Spawn(holes, ts, rs).0[i] == ClearExpired(holes[i], ts)
  {
    IneligibleFrom(holes, holes, ts, rs, 0);
  }

  /** Every outcome `SpawnOutcome` allows is produced by some draws: the
      spawn step is no narrower than its specification. */
  lemma EveryOutcomeReachable(h: Hole, h2: Hole, ts: real)
    requires SpawnOutcome(h, h2, ts)
    ensures exists rs :: |rs| == 4 && ValidDraws(rs) && SpawnHole(h, ts, rs).0 == h2
  {
    var e := ClearExpired(h, ts);
    if h2 == e {
      var rs := [0.5, 0.5, 0.5, 0.5];
      assert ValidDraws(rs);
      assert SpawnHole(h, ts, rs).0 == h2;
    } else {
      var k := h2.kind.value;
      var u := (h2.until - ts - LifeMin(k)) / (LifeMax(k) - LifeMin(k));
      var c := (h2.cooldown - ts - CooldownMin) / (CooldownMax - CooldownMin);
      var rs := [0.0, if k == Sticks then 0.0 else 0.5, u, c];
      assert ValidDraws(rs);
      assert Rand(c, CooldownMin, CooldownMax) == h2.cooldown - ts;
      if k == Sticks {
        assert Rand(u, LifeMin(Sticks), LifeMax(Sticks)) == h2.until - ts;
      } else {
        assert Rand(u, LifeMin(Iqos), LifeMax(Iqos)) == h2.until - ts;
      }
      assert SpawnHole(h, ts, rs).0 == h2;
    }
  }
}

=== FILE: state.dfy ===
/**
 The state of one game session: the round clock, the score, the timed x2
 multiplier and the seven holes a target can pop out of.

 Times are milliseconds on the page clock (`real`, as the host's timestamps
 are fractional); coordinates are canvas pixels.
 */
module GameState {

  datatype Option<T> = None | Some(value: T)

  /** What a hole can hold: a basic target ("iqos", 30 points) or a bonus
      target ("sticks", 10 points and a x2 window). */
  datatype Kind = Iqos | Sticks

  /** One hole. `x`, `y` are its fixed position as fractions of the canvas;
      `kind` is the target it holds, if any; `until` is when that target
      expires; `cooldown` is the earliest time the hole may spawn again;
      `justHit` is when the hit flash ends. */
  datatype Hole = Hole(x: real, y: real, kind: Option<Kind>, until: real, cooldown: real, justHit: real)

  datatype Session = Session(
    running: bool,
    timeLeft: real,
    lastTs: real,
    score: int,
    multiplier: int,
    multUntil: real,
    holes: seq<Hole>,
    hapticOn: bool)

  /** Length of a round. */
  const RoundMs: real := 30000.0

  /** Hole positions, in the order every scan visits them. */
  const Grid: seq<(real, real)> := [
    (0.2, 0.25), (0.5, 0.25), (0.8, 0.25),
    (0.2, 0.55), (0.5, 0.55), (0.8, 0.55),
    (0.5, 0.83)
  ]

  /** The holes sit at the grid positions, in grid order. */
  predicate OnGrid(holes: seq<Hole>) {
    && |holes| == |Grid|
    && forall i :: 0 <= i < |holes| ==> holes[i].x == Grid[i].0 && holes[i].y == Grid[i].1
  }

  /** A running round always has time left. */
  predicate ClockSound(s: Session) {
    s.running ==> s.timeLeft > 0.0
  }

  /** What every reachable session satisfies. */
  predicate Valid(s: Session) {
    && OnGrid(s.holes)
    && (s.multiplier == 1 || s.multiplier == 2)
    && s.score >= 0
    && ClockSound(s)
  }

  /** A hole at a grid position with no target and all timestamps at zero. */
  function EmptyHole(p: (real, real)): Hole {
    Hole(p.0, p.1, None, 0.0, 0.0, 0.0)
  }

  /** The state when the page has loaded and no round has been started. */
  function Initial(): (s: Session)
    ensures Valid(s)
    ensures !s.running && s.score == 0 && s.multiplier == 1 && s.hapticOn
    ensures forall i :: 0 <= i < |s.holes| ==> s.holes[i].kind.None?
  {
    Session(false, RoundMs, 0.0, 0, 1, 0.0, seq(|Grid|, i requires 0 <= i < |Grid| => EmptyHole(Grid[i])), true)
  }
}
